=== FILE: README.md ===
# PLEXOS model export, in Dafny

This project models the exporter in `coad/export_plexos_model.py`. The
exporter takes a PLEXOS input model, which is a graph of typed objects held
by a COAD store. It picks the part of that model that one or more PLEXOS
*models* cover, optionally narrowed to one Region or Zone. It flattens every
selected object into (class, object, property, scenario, value) rows and
pivots the rows into one object-by-property table per class.

The store is a read-only value (`ObjectStore.Store`):

- a map from identity `(cls, name)` to an object record, which holds the
  attribute map, the property table keyed `"type.name"` and the text table
  keyed `"category.name"`;
- a set of parent-to-child edges.

The three stages are pure functions over this value:

- `ScopeResolver.Resolve` models `get_model_items`;
- `Flattener.Flatten` models `export_data`;
- `PivotWriter.Pivot` models the grouping and pivot of `write_tables`.

`Pipeline.Export` chains the three stages the way the module's usage note
does.

Files and modules:

- `wrappers.dfy` (`Wrappers`): `Option`, `Result`.
- `seqs.dfy` (`Seqs`): distinctness, keep-first deduplication.
- `strings.dfy` (`Strings`): Python string order, `sorted`, `split('.', 1)`.
- `store.dfy` (`ObjectStore`): identities, values, the store, its queries.
- `scope.dfy` (`ScopeResolver`): scope resolution.
- `flatten.dfy` (`Flattener`): flattening.
- `pivot.dfy` (`PivotWriter`): the pivot.
- `pipeline.dfy` (`Pipeline`): the stages chained, and facts that span them.
- `examples.dfy` (`ScopeExamples`): two small stores worked by hand.

Two kinds of iteration in the source have an order the model cannot read
off the code. The loops at lines 47-59 and 121-151 iterate Python sets,
whose order is unspecified. The other loops iterate what the COAD store
hands back: the lists from `get_parents()` and `get_children()` (lines
77, 84, 89), `coad[...].values()` (lines 66, 73) and an object's
`items()` (line 115). Their order is set by the store, which is not part of
this model. In both cases the model visits the elements in sorted order:
hierarchy-string order for identities (`ObjectStore.Listing`) and key order
for attributes. Where the source calls `sorted` itself, the model uses the
same order, Python's code-point order on `str` (`Strings.Less`).

Three behaviours of the code are easy to misread; the model follows the
code:

- Only the exact list `[""]` is a fatal "no model" error (line 39). An empty
  list `[]` resolves normally and yields no model members.
- A region root is never added to the scope by itself (lines 75-93). It
  enters only as a child of a parent not named "System", or by another route.
  So for a Region R1 whose only parent is System, R1 is *not* in scope.
  `ScopeExamples.RegionRootNotAddedUnderSystem` works this case through.
- Only structured-property rows skip the value key `"uid"` (line 175).
  Attribute rows, relationship rows and text rows can still carry a property
  named `"uid"`.

## Model

| member | source | states |
|---|---|---|
| `ScopeResolver.Resolve` | coad/export_plexos_model.py:16-100 | `[""]` fails with NoModelGiven. Resolution succeeds iff the list is not `[""]` and every named model exists; otherwise it fails with UnknownModel, naming the first requested model, in list order, that is not stored. On success: the object list has no duplicate pair; its pairs are exactly the in-scope identities (`InScope`: non-Scenario model members, every data file, the two-hop neighbourhood of the region roots); all of them are stored objects; a scenario name is listed iff it names a Scenario child of a requested model; the data-file names are exactly the stored Data File names; the scenario list is `ScenarioNames`, extended model by model with repeats kept |
| `ScopeResolver.RegionRoots` | coad/export_plexos_model.py:18-73 | Roots are stored objects of the filter class or of its toggle. No filter value: every object of the filter class. A value found under the filter class: that object alone. Otherwise a value found under the toggled class: that object. A miss under both: every object of the toggled class, so the export goes on unfiltered |
| `ScopeResolver.MemberRows` | coad/export_plexos_model.py:47-61 | The membership rows are exactly the children of the requested models whose class is not Scenario |
| `ScopeResolver.ScenarioNames` | coad/export_plexos_model.py:49-51 | A name is in the scenario list iff a requested model has a Scenario child of that name |
| `ScopeResolver.ScenarioNamesAppend` | coad/export_plexos_model.py:42-51 | The scenario list for models `a + b` is the list for `a` followed by the list for `b`. It is extended per model and never deduplicated, so a scenario shared by two models appears twice |
| `ScopeResolver.ScenarioNamesOfOne` | coad/export_plexos_model.py:50-51 | One model's share of the scenario list has no repeated name: each Scenario child is listed once per model, because `scen` is a set |
| `ScopeResolver.MissingModel` | coad/export_plexos_model.py:42-47 | Finds no model iff every requested model is stored. The model it reports is requested and not stored, and every model listed before its first occurrence is stored: it is the first `coad['Model'][mod]` lookup that fails |
| `ScopeResolver.ParentRows` | coad/export_plexos_model.py:77-93 | Rows for a parent `p` of a root: `p`, the parents of `p`, and the children of `p` only when `p`'s name is not "System"; nothing else |
| `ScopeResolver.RegionRows` | coad/export_plexos_model.py:75-93 | The closure rows are exactly those reached from some parent of some root |
| `ScopeResolver.Accumulated` | coad/export_plexos_model.py:42-93 | The pairs gathered before deduplication are exactly the in-scope identities |
| `ScopeResolver.ScopeObjects` | coad/export_plexos_model.py:98 | After `drop_duplicates` the list has no duplicates, holds the same pairs as before, and every pair is a stored object |
| `ScopeResolver.InScopeIsStored` | coad/export_plexos_model.py:113 | Every in-scope identity is stored, so the flattener's `coad[cls][name]` lookup succeeds |
| `ScopeResolver.RegionClosure` | coad/export_plexos_model.py:75-93 | For each root `r` and parent `p` of `r`: `p` and every parent of `p` are in the resolved objects, and the children of `p` are too when `p`'s name is not "System" |
| `ScopeResolver.DataFilesInScope` | coad/export_plexos_model.py:64-68 | Every stored Data File is in the data-file list and is an object row, whatever models are requested |
| `ScopeExamples.ScenarioTrackedSeparately` | coad/export_plexos_model.py:47-61 | For a model with members Scenario.PeakLoad and Generator.GenA: PeakLoad is a scenario name, GenA is an object row, and Scenario.PeakLoad is not an object row |
| `ScopeExamples.RegionRootNotAddedUnderSystem` | coad/export_plexos_model.py:75-93 | Filtering on R1, whose only parent is System next to sibling R2: System is in scope, R2 is not (System's children are skipped), and R1 itself is not |
| `Seqs.Dedup` | coad/export_plexos_model.py:98 | Keep-first deduplication: no duplicates, same elements, and survivors keep the order of their first occurrences |
| `Seqs.DedupOfNoDup` | coad/export_plexos_model.py:98 | Deduplicating a duplicate-free list returns it unchanged, so deduplication is idempotent |
| `ObjectStore.Listing` | coad/export_plexos_model.py:47 | Iterating a set of identities through their hierarchy strings visits each identity exactly once and nothing else |
| `ObjectStore.ParseHierarchyInverse` | coad/export_plexos_model.py:60-61 | Splitting `cls + "." + name` at the first dot gives back `(cls, name)` when the class has no dot |
| `Strings.SplitFirst` | coad/export_plexos_model.py:187 | `split('.', 1)`: the head has no dot, and head + "." + tail is the input |
| `Strings.SortedKeys` | coad/export_plexos_model.py:155 | `sorted(keys)` lists every key exactly once, in strictly increasing string order |
| `Strings.SortedUnique` | coad/export_plexos_model.py:184 | Two strictly increasing listings of the same keys are equal, so the sorted visiting order is fully determined by the keys |
| `Flattener.ObjectRecords` | coad/export_plexos_model.py:112-194 | System.System yields no rows. Any other object's rows are exactly its attribute, relation, structured-property and text rows, each carrying the object's class and name. Rows without a scenario tag (attributes, relations) all come before rows with one (properties, text) |
| `Flattener.AttrRecords` | coad/export_plexos_model.py:114-119 | Exactly one row per attribute: the rows are pairwise distinct and as many as the attributes. A row has property = the attribute key, value = its value, and no scenario |
| `Flattener.RelationRecords` | coad/export_plexos_model.py:120-151 | The parents-only / peers / children-only partition yields no duplicate row. A row exists iff the related object is a child, or a parent that is not a Model, or a Model parent named in the requested models. Property = related class, value = related name |
| `Flattener.ParentRecords` | coad/export_plexos_model.py:127-135 | A parent row exists iff the parent is not a Model, or it is a Model among the requested models |
| `Flattener.EdgeRecords` | coad/export_plexos_model.py:136-151 | Peers and children-only objects each yield one row, unconditionally |
| `Flattener.PeerReportedOnce` | coad/export_plexos_model.py:121-143 | An object that is both parent and child of another (a peer) yields exactly one row, not two |
| `Flattener.PropertyGate` | coad/export_plexos_model.py:158-172 | The read flag computed by the three `if`s is the inclusion rule: System always; Scenario iff the name is in the scenario list; Data File iff the name is in the data-file list. The joined tag is "" for System and the key's name otherwise |
| `Flattener.PropRecords` | coad/export_plexos_model.py:153-180 | No row has property "uid". A row exists iff some property key passes the inclusion rule and one of its value keys other than "uid" gives the row's property and value. Its tag is the triggering scenario or data-file name ("" for System) |
| `Flattener.TextRecords` | coad/export_plexos_model.py:182-194 | A row exists iff some text key passes the same inclusion rule and one of its value keys gives the row's property and value. The tag is the whole key, and "uid" is not filtered |
| `Flattener.TextRecordsOrdered` | coad/export_plexos_model.py:183-189 | Text rows come out ordered by key, and within a key by value key |
| `Flattener.StreamRecords` | coad/export_plexos_model.py:104-113 | The stream is empty iff every listed identity yields no rows |
| `Flattener.Normalize` | coad/export_plexos_model.py:197 | A normalised value is never a list. A list becomes the tuple of the same items in the same order. Any other value is unchanged |
| `Flattener.Flatten` | coad/export_plexos_model.py:196-198 | Fails (no `value` column) iff no in-scope identity yields a row. Otherwise returns the stream with list values turned into tuples |
| `PivotWriter.GroupValues` | coad/export_plexos_model.py:202 | A group is empty iff no row has that class, object and property. Every value in it comes from such a row |
| `PivotWriter.GroupValuesAppend` | coad/export_plexos_model.py:202 | Grouping keeps stream order: the group of `a + b` is the group of `a` followed by the group of `b` |
| `PivotWriter.Pivot` | coad/export_plexos_model.py:201-203 | One table per class in the stream. Its rows are the objects of that class and its columns are the properties of that class, with every row holding every column, and each cell is the `CellOf` of its class, object and property |
| `PivotWriter.CellOf` | coad/export_plexos_model.py:202-203 | A cell is '' iff no row has that class, object and property (`fillna('')`). Otherwise it is the tuple of those rows' values in stream order |
| `PivotWriter.RowInItsCell` | coad/export_plexos_model.py:201-203 | Every row lands in its class's table, in its object's row and its property's column, and its value is in that cell's tuple |
| `Pipeline.ExportStream` | coad/export_plexos_model.py:12-13 | `[""]` fails before flattening. On success, resolution succeeded, the stream is non-empty, no value is a list, and the stream is the normalised rows of the resolved objects |
| `Pipeline.Export` | coad/export_plexos_model.py:12-14 | `[""]` fails. The export succeeds exactly when the flat stream does, and its tables are then the pivot of that stream, with at least one table |
| `Pipeline.ScopedCellIsOwnRows` | coad/export_plexos_model.py:98-202 | When the export succeeds, for every resolved identity and every property, the group of its class, name and property is made only of that identity's own rows, in emission order. Deduplication means no other row reaches that cell |
| `Pipeline.SystemRootNotExported` | coad/export_plexos_model.py:112 | When the export succeeds, the System table, if there is one, has no System row |
| `Pipeline.ListBecomesTupleInCell` | coad/export_plexos_model.py:197-202 | With every requested model present, a list value of any resolved object makes the export succeed and reaches its table cell as a tuple of the same items in the same order |
| `Pipeline.TupleInCell` | coad/export_plexos_model.py:197-203 | Any list-valued row of a raw stream appears, as the tuple of the same items, in the cell of its class, object and property once the stream is normalised and pivoted |

## Left out

- `main` and its argument parsing (lines 207-224): command-line plumbing. It
  calls a `COAD` name that the file never imports.
- Writing the tables with `to_csv` and joining the folder path (line 204):
  file output. The model stops at the per-class grids.
- The `print` diagnostics (lines 31, 96, 99).
- The COAD store itself, which is not part of this model. It is a value given
  as input. A class the store does not know is treated as a class with no
  objects.
- pandas row and column ordering from `groupby` and `pivot`, and index
  resetting. Only grouping, cell contents and the '' fill are modelled.
- The `ValueError` that `split('.')` raises on names or keys with extra dots
  (lines 130, 158). `ObjectStore.WellFormed` requires that identities have no
  dot, property keys have exactly one dot, and text keys have at least one.
- The iteration order of Python sets (lines 47-59, 121-151) and of what the
  store returns (relatives, region roots, data files, attributes). The first
  is unspecified by Python, the second is set by the store; the model fixes
  both to sorted order. Inside one cell this choice matters only for
  relation rows: an object related to several objects of one class within
  one relation group (parents only, peers, or children only; lines 129-151,
  which iterate sets) gets their names in one admissible order, not the only
  one. Every other order inside a cell is fixed by the source: the
  statement order of lines 114-194 (attributes, relations, properties,
  text) and the `sorted` calls of lines 155, 159, 184 and 189.
- `coad/_compat.py`: a Python 2/3 shim around `cmp` that the exporter does
  not use.
- `Flattener.ObjectRecords`: states that untagged rows precede tagged ones,
  not that attribute rows precede relation rows or that property rows
  precede text rows (lines 114-194). The four parts are stated by membership.
- `Flattener.PropRecords`: states which rows appear and with what tag, but
  neither their order nor how often a row repeats. Its rows do not carry the
  property key, so the sorted key order (line 155) is used but not stated,
  and two keys can legitimately yield equal rows (`System.A` and `System.B`
  with the same value key and value are both tagged ""). `Flattener.TextRecordsOrdered`
  states the order for text rows.
- `ScopeResolver.Resolve`: states the object list as a duplicate-free list
  with the right members, not its exact order. `Seqs.Dedup` states the
  keep-first order of the step that produces it.

=== FILE: examples.dfy ===
/** Small stores on which the resolver's behaviour can be checked by hand. */
module ScopeExamples {
  import opened ObjectStore
  import opened ScopeResolver

  const Empty := Obj(map[], map[], map[])

  /** A store of attribute-free objects is well formed when its identities
      are and its edges join stored objects. */
  lemma BareStoreWellFormed(st: Store)
    requires forall i :: i in st.objects ==> WellFormedIdent(i) && st.objects[i] == Empty
    requires forall e :: e in st.edges ==> e.0 in st.objects && e.1 in st.objects
    ensures WellFormed(st)
  {
  }

  lemma OneModelPresent(st: Store, m: string)
    requires ModelIdent(m) in st.objects
    ensures forall x :: x in [m] ==> ModelIdent(x) in st.objects
  {
    forall x | x in [m] ensures ModelIdent(x) in st.objects {
      assert x == m;
    }
  }

  /** Model DAY_AHEAD with members Scenario.PeakLoad and Generator.GenA. */
  function DayAheadStore(): Store
  {
    var m := Ident("Model", "DAY_AHEAD");
    var s := Ident("Scenario", "PeakLoad");
    var g := Ident("Generator", "GenA");
    Store(map[m := Empty, s := Empty, g := Empty], {(m, s), (m, g)})
  }

  lemma DayAheadWellFormed()
    ensures WellFormed(DayAheadStore())
  {
    var st := DayAheadStore();
    var m := Ident("Model", "DAY_AHEAD");
    var s := Ident("Scenario", "PeakLoad");
    var g := Ident("Generator", "GenA");
    assert WellFormedIdent(m) && WellFormedIdent(s) && WellFormedIdent(g);
    BareStoreWellFormed(st);
  }

  /** A model's Scenario member goes to the scenario list only; its other
      members go to the object list. The store is a parameter pinned by the
      requires, so the proof names it `st` instead of unfolding the literal
      store in every clause. */
  lemma ScenarioTrackedSeparately(st: Store)
    requires st == DayAheadStore()
    ensures WellFormed(st)
    ensures var r := Resolve(st, ["DAY_AHEAD"], "", "Region");
            && r.Success?
            && "PeakLoad" in r.value.scenarios
            && Ident("Generator", "GenA") in r.value.objects
            && Ident("Scenario", "PeakLoad") !in r.value.objects
  {
    DayAheadWellFormed();
    DayAheadScope();
    assert "DAY_AHEAD" in ["DAY_AHEAD"];
    assert ["DAY_AHEAD"] != [""];
    assert ModelIdent("DAY_AHEAD") in st.objects;
    OneModelPresent(st, "DAY_AHEAD");
  }

  lemma DayAheadScope()
    ensures var st := DayAheadStore();
            && Ident("Scenario", "PeakLoad") in Children(st, ModelIdent("DAY_AHEAD"))
            && InScope(st, ["DAY_AHEAD"], RegionRoots(st, "Region", ""), Ident("Generator", "GenA"))
            && !InScope(st, ["DAY_AHEAD"], RegionRoots(st, "Region", ""), Ident("Scenario", "PeakLoad"))
  {
    var st := DayAheadStore();
    var m := Ident("Model", "DAY_AHEAD");
    var s := Ident("Scenario", "PeakLoad");
    var g := Ident("Generator", "GenA");
    assert (m, s) in st.edges && (m, g) in st.edges;
    assert s in Children(st, ModelIdent("DAY_AHEAD")) && g in Children(st, ModelIdent("DAY_AHEAD"));
    assert "DAY_AHEAD" in ["DAY_AHEAD"];
    assert RegionRoots(st, "Region", "") == {};
  }

  /** Region R1 hangs from System alone, next to R2. */
  function TwoRegionStore(): Store
  {
    var sys := SystemRoot;
    var r1 := Ident("Region", "R1");
    var r2 := Ident("Region", "R2");
    var m := Ident("Model", "M");
    Store(map[sys := Empty, r1 := Empty, r2 := Empty, m := Empty], {(sys, r1), (sys, r2)})
  }

  lemma TwoRegionWellFormed()
    ensures WellFormed(TwoRegionStore())
  {
    var st := TwoRegionStore();
    var r1 := Ident("Region", "R1");
    var r2 := Ident("Region", "R2");
    var m := Ident("Model", "M");
    assert WellFormedIdent(SystemRoot) && WellFormedIdent(r1) && WellFormedIdent(r2) && WellFormedIdent(m);
    BareStoreWellFormed(st);
  }

  /** Filtering on R1 whose only parent is System: System is in scope, but
      neither R2 (System's children are skipped) nor R1 itself (a root is
      never added directly). The store is a parameter pinned by the requires,
      as in `ScenarioTrackedSeparately`. */
  lemma RegionRootNotAddedUnderSystem(st: Store)
    requires st == TwoRegionStore()
    ensures WellFormed(st)
    ensures var r := Resolve(st, ["M"], "R1", "Region");
            && r.Success?
            && SystemRoot in r.value.objects
            && Ident("Region", "R2") !in r.value.objects
            && Ident("Region", "R1") !in r.value.objects
  {
    TwoRegionWellFormed();
    TwoRegionScope();
    assert ["M"] != [""];
    assert ModelIdent("M") in st.objects;
    OneModelPresent(st, "M");
  }

  lemma TwoRegionRelatives()
    ensures var st := TwoRegionStore();
            && Parents(st, Ident("Region", "R1")) == {SystemRoot}
            && Parents(st, SystemRoot) == {}
            && Children(st, ModelIdent("M")) == {}
            && OfClass(st, "Data File") == {}
  {
    var st := TwoRegionStore();
    assert (SystemRoot, Ident("Region", "R1")) in st.edges;
  }

  lemma TwoRegionScope()
    ensures var st := TwoRegionStore();
            var roots := RegionRoots(st, "Region", "R1");
            && InScope(st, ["M"], roots, SystemRoot)
            && !InScope(st, ["M"], roots, Ident("Region", "R1"))
            && !InScope(st, ["M"], roots, Ident("Region", "R2"))
  {
    var st := TwoRegionStore();
    var r1 := Ident("Region", "R1");
    var roots := RegionRoots(st, "Region", "R1");
    assert roots == {r1};
    TwoRegionRelatives();
    assert ReachedFrom(st, SystemRoot, SystemRoot);
  }
}

=== FILE: flatten.dfy ===
/** Flattening (`export_data`): every in-scope object becomes a stream of
    (class, object, property, scenario, value) records. */
module Flattener {
  import opened Wrappers
  import opened Strings
  import opened Seqs
  import opened ObjectStore
  import opened ScopeResolver

  /** One flat export row; `scenario` is None (a missing cell) for attribute
      and relationship rows. */
  datatype Record = Record(cls: string, obj: string, property: string, scenario: Option<string>, value: Value)

  /** `pd.DataFrame([])` has no `value` column, so an empty stream fails. */
  datatype FlattenError = EmptyExport

  /** Every row of `rs` belongs to identity `i`. */
  predicate Owned(rs: seq<Record>, i: Ident)
  {
    forall rec :: rec in rs ==> rec.cls == i.cls && rec.obj == i.name
  }

  /** Rows `(i, v, tag, vals[v])` for the value keys `vkeys` in order,
      skipping the key "uid" when `dropUid` holds. */
  function ValueRows(i: Ident, vals: map<string, Value>, vkeys: seq<string>, tag: Option<string>, dropUid: bool)
    : (rs: seq<Record>)
    requires forall v :: v in vkeys ==> v in vals
    ensures Owned(rs, i)
    ensures forall rec :: rec in rs <==>
              exists v :: v in vkeys && !(dropUid && v == "uid") && rec == Record(i.cls, i.name, v, tag, vals[v])
  {
    if vkeys == [] then []
    else
      var v := vkeys[0];
      var rest := ValueRows(i, vals, vkeys[1..], tag, dropUid);
      assert forall w :: w in vkeys <==> w == v || w in vkeys[1..];
      (if dropUid && v == "uid" then [] else [Record(i.cls, i.name, v, tag, vals[v])]) + rest
  }

  /** Plain attributes: one row per attribute, no scenario. */
  function AttrRecords(i: Ident, attrs: map<string, Value>): (rs: seq<Record>)
    ensures Owned(rs, i)
    ensures forall rec :: rec in rs <==>
              exists k :: k in attrs && rec == Record(i.cls, i.name, k, None, attrs[k])
    ensures NoDup(rs) && |rs| == |attrs|
  {
    var keys := SortedKeys(attrs.Keys);
    ValueRowsSorted(i, attrs, keys, None, false);
    IncreasingNoDup(ValueRows(i, attrs, keys, None, false));
    ValueRowsCount(i, attrs, keys, None);
    ValueRows(i, attrs, keys, None, false)
  }

  /** Without the "uid" filter every value key yields exactly one row. */
  lemma {:induction false} ValueRowsCount(i: Ident, vals: map<string, Value>, vkeys: seq<string>, tag: Option<string>)
    requires forall v :: v in vkeys ==> v in vals
    ensures |ValueRows(i, vals, vkeys, tag, false)| == |vkeys|
  {
    if vkeys != [] {
      ValueRowsCount(i, vals, vkeys[1..], tag);
    }
  }

  /** Rows in strictly increasing property order are pairwise distinct. */
  lemma IncreasingNoDup(rs: seq<Record>)
    requires PropertiesIncreasing(rs)
    ensures NoDup(rs)
  {
    forall a, b | 0 <= a < b < |rs|
      ensures rs[a] != rs[b]
    {
      if rs[a] == rs[b] {
        LessIrreflexive(rs[a].property);
      }
    }
  }

  /** The relationship row for a related object `j`: property = its class,
      value = its name. */
  function EdgeRecord(i: Ident, j: Ident): Record
  {
    Record(i.cls, i.name, j.cls, None, Scalar(j.name))
  }

  /** A parent of class Model is kept only when it is a requested model. */
  predicate ParentKept(j: Ident, models: seq<string>)
  {
    (j.cls == "Model" && j.name in models) || j.cls != "Model"
  }

  function ParentRecords(i: Ident, ps: seq<Ident>, models: seq<string>): (rs: seq<Record>)
    requires NoDup(ps)
    ensures NoDup(rs)
    ensures Owned(rs, i)
    ensures forall rec :: rec in rs <==> exists j :: j in ps && ParentKept(j, models) && rec == EdgeRecord(i, j)
  {
    if ps == [] then []
    else
      var rest := ParentRecords(i, ps[1..], models);
      assert forall q :: q in ps <==> q == ps[0] || q in ps[1..];
      assert ps[0] !in ps[1..];
      if ParentKept(ps[0], models) then
        NoDupConcat([EdgeRecord(i, ps[0])], rest);
        [EdgeRecord(i, ps[0])] + rest
      else rest
  }

  function EdgeRecords(i: Ident, js: seq<Ident>): (rs: seq<Record>)
    requires NoDup(js)
    ensures NoDup(rs)
    ensures Owned(rs, i)
    ensures forall rec :: rec in rs <==> exists j :: j in js && rec == EdgeRecord(i, j)
  {
    var rs := seq(|js|, k requires 0 <= k < |js| => EdgeRecord(i, js[k]));
    assert forall j :: j in js ==> EdgeRecord(i, j) in rs by {
      forall j | j in js ensures EdgeRecord(i, j) in rs {
        var k :| 0 <= k < |js| && js[k] == j;
        assert rs[k] == EdgeRecord(i, j);
      }
    }
    rs
  }

  /** A related object the export reports: any child, and any parent that
      passes the Model filter. */
  predicate Reported(st: Store, i: Ident, models: seq<string>, j: Ident)
  {
    j in Children(st, i) || (j in Parents(st, i) && ParentKept(j, models))
  }

  /** Relationship rows from the partition parents-only / peers /
      children-only of the related objects, in that order. Each reported
      related object yields exactly one row. */
  function RelationRecords(st: Store, i: Ident, models: seq<string>): (rs: seq<Record>)
    requires WellFormed(st)
    ensures NoDup(rs)
    ensures Owned(rs, i)
    ensures forall rec :: rec in rs <==> exists j :: Reported(st, i, models, j) && rec == EdgeRecord(i, j)
  {
    RelativesAreStored(st, i);
    var ch := Children(st, i);
    var pa := Parents(st, i);
    var parents := ParentRecords(i, Listing(pa - ch), models);
    var peers := EdgeRecords(i, Listing(ch * pa));
    var children := EdgeRecords(i, Listing(ch - pa));
    PartitionRows(st, i, models, parents, peers, children);
    parents + peers + children
  }

  lemma PartitionRows(st: Store, i: Ident, models: seq<string>, parents: seq<Record>, peers: seq<Record>, children: seq<Record>)
    requires NoDup(parents) && NoDup(peers) && NoDup(children)
    requires forall rec :: rec in parents <==>
               exists j :: j in Parents(st, i) - Children(st, i) && ParentKept(j, models) && rec == EdgeRecord(i, j)
    requires forall rec :: rec in peers <==>
               exists j :: j in Children(st, i) * Parents(st, i) && rec == EdgeRecord(i, j)
    requires forall rec :: rec in children <==>
               exists j :: j in Children(st, i) - Parents(st, i) && rec == EdgeRecord(i, j)
    ensures NoDup(parents + peers + children)
    ensures forall rec :: rec in parents + peers + children <==>
              exists j :: Reported(st, i, models, j) && rec == EdgeRecord(i, j)
  {
    NoDupConcat(parents, peers);
    NoDupConcat(parents + peers, children);
    forall rec | exists j :: Reported(st, i, models, j) && rec == EdgeRecord(i, j)
      ensures rec in parents + peers + children
    {
      var j :| Reported(st, i, models, j) && rec == EdgeRecord(i, j);
      if j in Children(st, i) && j in Parents(st, i) {
        assert rec in peers;
      } else if j in Children(st, i) {
        assert rec in children;
      } else {
        assert rec in parents;
      }
    }
  }

  /** The inclusion rule for a property or text category and name. */
  predicate Included(cat: string, name: string, scenarios: seq<string>, dataFiles: set<string>)
  {
    (cat == "Scenario" && name in scenarios) || (cat == "Data File" && name in dataFiles) || cat == "System"
  }

  /** `','.join(x for x in [s, d] if x != '')` */
  function JoinTags(s: string, d: string): string
  {
    if s == "" then d else if d == "" then s else s + "," + d
  }

  /** The read flag and scenario tag the structured-property loop computes
      for one key type and name. */
  function PropertyGate(ptype: string, pname: string, scenarios: seq<string>, dataFiles: set<string>)
    : (gate: (bool, string))
    ensures gate.0 <==> Included(ptype, pname, scenarios, dataFiles)
    ensures gate.0 ==> gate.1 == (if ptype == "System" then "" else pname)
  {
    var scenarioTag := if ptype == "Scenario" && pname in scenarios then pname else "";
    var readScenario := ptype == "Scenario" && pname in scenarios;
    var datafileTag := if ptype == "Data File" && pname in dataFiles then pname else "";
    var readDatafile := ptype == "Data File" && pname in dataFiles;
    (readScenario || readDatafile || ptype == "System", JoinTags(scenarioTag, datafileTag))
  }

  /** The scenario tag of an included structured-property key. */
  function PropTag(key: string): string
    requires '.' in key
  {
    if SplitFirst(key).0 == "System" then "" else SplitFirst(key).1
  }

  function PropKeyRows(i: Ident, props: Table, keys: seq<string>, scenarios: seq<string>, dataFiles: set<string>)
    : (rs: seq<Record>)
    requires forall k :: k in keys ==> k in props && '.' in k
    ensures Owned(rs, i)
    ensures forall rec :: rec in rs <==>
              exists k, v :: k in keys && v in props[k] && v != "uid"
                && Included(SplitFirst(k).0, SplitFirst(k).1, scenarios, dataFiles)
                && rec == Record(i.cls, i.name, v, Some(PropTag(k)), props[k][v])
  {
    if keys == [] then []
    else
      var k := keys[0];
      var parts := SplitFirst(k);
      var gate := PropertyGate(parts.0, parts.1, scenarios, dataFiles);
      var here := if gate.0 then ValueRows(i, props[k], SortedKeys(props[k].Keys), Some(gate.1), true) else [];
      var rest := PropKeyRows(i, props, keys[1..], scenarios, dataFiles);
      assert forall q :: q in keys <==> q == k || q in keys[1..];
      here + rest
  }

  /** Structured properties, keys in sorted order: an entry is exported iff
      its key's category is included, never under value key "uid". */
  function PropRecords(i: Ident, props: Table, scenarios: seq<string>, dataFiles: set<string>)
    : (rs: seq<Record>)
    requires forall k :: k in props ==> '.' in k && '.' !in SplitFirst(k).1
    ensures Owned(rs, i)
    ensures forall rec :: rec in rs ==> rec.property != "uid"
    ensures forall rec :: rec in rs <==>
              exists k, v :: k in props && v in props[k] && v != "uid"
                && Included(SplitFirst(k).0, SplitFirst(k).1, scenarios, dataFiles)
                && rec == Record(i.cls, i.name, v, Some(PropTag(k)), props[k][v])
  {
    PropKeyRows(i, props, SortedKeys(props.Keys), scenarios, dataFiles)
  }

  function TextKeyRows(i: Ident, text: Table, keys: seq<string>, scenarios: seq<string>, dataFiles: set<string>)
    : (rs: seq<Record>)
    requires forall k :: k in keys ==> k in text && '.' in k
    ensures Owned(rs, i)
    ensures forall rec :: rec in rs <==>
              exists k, v :: k in keys && v in text[k]
                && Included(SplitFirst(k).0, SplitFirst(k).1, scenarios, dataFiles)
                && rec == Record(i.cls, i.name, v, Some(k), text[k][v])
  {
    if keys == [] then []
    else
      var k := keys[0];
      var parts := SplitFirst(k);
      var here := if Included(parts.0, parts.1, scenarios, dataFiles)
                  then ValueRows(i, text[k], SortedKeys(text[k].Keys), Some(k), false) else [];
      var rest := TextKeyRows(i, text, keys[1..], scenarios, dataFiles);
      assert forall q :: q in keys <==> q == k || q in keys[1..];
      here + rest
  }

  /** Text entries, keys in sorted order, tagged with the whole key and
      gated by the same inclusion rule; "uid" is not filtered here. */
  function TextRecords(i: Ident, text: Table, scenarios: seq<string>, dataFiles: set<string>)
    : (rs: seq<Record>)
    requires forall k :: k in text ==> '.' in k
    ensures Owned(rs, i)
    ensures forall rec :: rec in rs <==>
              exists k, v :: k in text && v in text[k]
                && Included(SplitFirst(k).0, SplitFirst(k).1, scenarios, dataFiles)
                && rec == Record(i.cls, i.name, v, Some(k), text[k][v])
  {
    TextKeyRows(i, text, SortedKeys(text.Keys), scenarios, dataFiles)
  }

  /** All rows for one in-scope identity; the sentinel System.System yields none. */
  function ObjectRecords(st: Store, sc: Scope, i: Ident): (rs: seq<Record>)
    requires WellFormed(st)
    requires i in st.objects || i == SystemRoot
    ensures i == SystemRoot ==> rs == []
    ensures Owned(rs, i)
    ensures i != SystemRoot ==> forall rec :: rec in rs <==>
              rec in AttrRecords(i, st.objects[i].attrs)
              || rec in RelationRecords(st, i, sc.models)
              || rec in PropRecords(i, st.objects[i].props, sc.scenarios, sc.dataFiles)
              || rec in TextRecords(i, st.objects[i].text, sc.scenarios, sc.dataFiles)
    ensures forall a, b :: 0 <= a < b < |rs| && rs[a].scenario.Some? ==> rs[b].scenario.Some?
  {
    if i == SystemRoot then []
    else
      var o := st.objects[i];
      var attrs := AttrRecords(i, o.attrs);
      var relations := RelationRecords(st, i, sc.models);
      var props := PropRecords(i, o.props, sc.scenarios, sc.dataFiles);
      var text := TextRecords(i, o.text, sc.scenarios, sc.dataFiles);
      RowTags(st, sc, i);
      UntaggedFirst(attrs + relations, props + text);
      (attrs + relations) + (props + text)
  }

  /** Attribute and relation rows carry no scenario tag; property and text
      rows always carry one. */
  lemma RowTags(st: Store, sc: Scope, i: Ident)
    requires WellFormed(st) && i in st.objects
    ensures forall rec :: rec in AttrRecords(i, st.objects[i].attrs) + RelationRecords(st, i, sc.models) ==>
              rec.scenario.None?
    ensures forall rec :: rec in PropRecords(i, st.objects[i].props, sc.scenarios, sc.dataFiles)
                                 + TextRecords(i, st.objects[i].text, sc.scenarios, sc.dataFiles) ==>
              rec.scenario.Some?
  {
    var o := st.objects[i];
    var relations := RelationRecords(st, i, sc.models);
    var props := PropRecords(i, o.props, sc.scenarios, sc.dataFiles);
    forall rec | rec in relations ensures rec.scenario.None? {
      var j :| Reported(st, i, sc.models, j) && rec == EdgeRecord(i, j);
    }
    forall rec | rec in props ensures rec.scenario.Some? {
      var k, v :| k in o.props && v in o.props[k] && v != "uid"
        && Included(SplitFirst(k).0, SplitFirst(k).1, sc.scenarios, sc.dataFiles)
        && rec == Record(i.cls, i.name, v, Some(PropTag(k)), o.props[k][v]);
    }
  }

  /** Rows without a scenario tag followed by rows with one: no tagged row
      precedes an untagged one. */
  lemma UntaggedFirst(untagged: seq<Record>, tagged: seq<Record>)
    requires forall rec :: rec in untagged ==> rec.scenario.None?
    requires forall rec :: rec in tagged ==> rec.scenario.Some?
    ensures forall a, b :: 0 <= a < b < |untagged + tagged| && (untagged + tagged)[a].scenario.Some? ==>
              (untagged + tagged)[b].scenario.Some?
  {
    var rs := untagged + tagged;
    forall a, b | 0 <= a < b < |rs| && rs[a].scenario.Some?
      ensures rs[b].scenario.Some?
    {
      if a >= |untagged| {
        assert rs[b] == tagged[b - |untagged|] && tagged[b - |untagged|] in tagged;
      }
    }
  }

  /** The rows of the identities `objs`, one identity after another. */
  function StreamRecords(st: Store, sc: Scope, objs: seq<Ident>): (rs: seq<Record>)
    requires WellFormed(st)
    requires forall i :: i in objs ==> i in st.objects || i == SystemRoot
    ensures rs == [] <==> forall i :: i in objs ==> ObjectRecords(st, sc, i) == []
  {
    if objs == [] then []
    else
      assert forall q :: q in objs <==> q == objs[0] || q in objs[1..];
      var head := ObjectRecords(st, sc, objs[0]);
      var rest := StreamRecords(st, sc, objs[1..]);
      assert head + rest == [] <==> head == [] && rest == [];
      head + rest
  }

  /** `tuple(x) if type(x) is list else x` */
  function Normalize(v: Value): (w: Value)
    ensures !w.List?
    ensures v.List? ==> w == Tuple(v.items)
    ensures !v.List? ==> w == v
  {
    if v.List? then Tuple(v.items) else v
  }

  /** `export_data(coad, scenarios, objects, data_files, models)`. */
  function Flatten(st: Store, sc: Scope): (r: Result<seq<Record>, FlattenError>)
    requires WellFormed(st)
    requires forall i :: i in sc.objects ==> i in st.objects || i == SystemRoot
    ensures r.Failure? <==> forall i :: i in sc.objects ==> ObjectRecords(st, sc, i) == []
    ensures r.Success? ==> r.value == NormalizeValues(StreamRecords(st, sc, sc.objects))
  {
    var d := StreamRecords(st, sc, sc.objects);
    if d == [] then Failure(EmptyExport) else Success(NormalizeValues(d))
  }

  /** Applies `Normalize` to the value column. */
  function NormalizeValues(d: seq<Record>): (n: seq<Record>)
    ensures |n| == |d|
    ensures forall k :: 0 <= k < |d| ==> n[k] == d[k].(value := Normalize(d[k].value))
  {
    seq(|d|, k requires 0 <= k < |d| => d[k].(value := Normalize(d[k].value)))
  }

  /** An object that is both a parent and a child of `i` (a peer) is
      reported by exactly one row, not one per direction. */
  lemma PeerReportedOnce(st: Store, i: Ident, models: seq<string>, j: Ident)
    requires WellFormed(st)
    requires j in Children(st, i) && j in Parents(st, i)
    ensures multiset(RelationRecords(st, i, models))[EdgeRecord(i, j)] == 1
  {
    var rs := RelationRecords(st, i, models);
    assert Reported(st, i, models, j);
    NoDupMultiplicity(rs, EdgeRecord(i, j));
  }

  /** Rows taken from strictly sorted value keys come out in strictly
      increasing property order. */
  predicate PropertiesIncreasing(rs: seq<Record>)
  {
    forall a, b :: 0 <= a < b < |rs| ==> Less(rs[a].property, rs[b].property)
  }

  lemma {:induction false} ValueRowsSorted(i: Ident, vals: map<string, Value>, vkeys: seq<string>, tag: Option<string>, dropUid: bool)
    requires forall v :: v in vkeys ==> v in vals
    requires StrictlySorted(vkeys)
    ensures PropertiesIncreasing(ValueRows(i, vals, vkeys, tag, dropUid))
  {
    if vkeys != [] {
      var v := vkeys[0];
      var head := if dropUid && v == "uid" then [] else [Record(i.cls, i.name, v, tag, vals[v])];
      var rest := ValueRows(i, vals, vkeys[1..], tag, dropUid);
      assert ValueRows(i, vals, vkeys, tag, dropUid) == head + rest;
      ValueRowsSorted(i, vals, vkeys[1..], tag, dropUid);
      forall b | 0 <= b < |rest|
        ensures Less(v, rest[b].property)
      {
        assert rest[b] in rest;
        var w :| w in vkeys[1..] && !(dropUid && w == "uid") && rest[b] == Record(i.cls, i.name, w, tag, vals[w]);
        var n :| 0 <= n < |vkeys[1..]| && vkeys[1..][n] == w;
        assert vkeys[n + 1] == w;
      }
      forall a, b | 0 <= a < b < |head + rest|
        ensures Less((head + rest)[a].property, (head + rest)[b].property)
      {
        if a < |head| {
          assert (head + rest)[a].property == v;
          assert (head + rest)[b] == rest[b - |head|];
          assert Less(v, rest[b - |head|].property);
        } else {
          assert (head + rest)[a] == rest[a - |head|] && (head + rest)[b] == rest[b - |head|];
        }
      }
    }
  }

  /** Text rows come out ordered by key and, within one key, by value key:
      the two `sorted` calls of the text loop. */
  predicate TextOrdered(rs: seq<Record>)
  {
    forall a, b :: 0 <= a < b < |rs| && rs[a].scenario.Some? && rs[b].scenario.Some? ==>
      Less(rs[a].scenario.value, rs[b].scenario.value)
      || (rs[a].scenario == rs[b].scenario && Less(rs[a].property, rs[b].property))
  }

  lemma OrderedConcat(here: seq<Record>, rest: seq<Record>, k: string)
    requires forall a :: 0 <= a < |here| ==> here[a].scenario == Some(k)
    requires PropertiesIncreasing(here)
    requires forall b :: 0 <= b < |rest| ==> rest[b].scenario.Some? && Less(k, rest[b].scenario.value)
    requires TextOrdered(rest)
    ensures TextOrdered(here + rest)
  {
    var all := here + rest;
    forall a, b | 0 <= a < b < |all| && all[a].scenario.Some? && all[b].scenario.Some?
      ensures Less(all[a].scenario.value, all[b].scenario.value)
              || (all[a].scenario == all[b].scenario && Less(all[a].property, all[b].property))
    {
      if b < |here| {
      } else if a < |here| {
        assert all[b] == rest[b - |here|];
      } else {
        assert all[a] == rest[a - |here|] && all[b] == rest[b - |here|];
      }
    }
  }

  lemma TagsOfHere(here: seq<Record>, k: string)
    requires forall rec :: rec in here ==> rec.scenario == Some(k)
    ensures forall a :: 0 <= a < |here| ==> here[a].scenario == Some(k)
  {
    forall a | 0 <= a < |here| ensures here[a].scenario == Some(k) {
      assert here[a] in here;
    }
  }

  lemma TagsAfterHead(rest: seq<Record>, keys: seq<string>)
    requires StrictlySorted(keys) && |keys| > 0
    requires forall rec :: rec in rest ==> rec.scenario.Some? && rec.scenario.value in keys[1..]
    ensures forall b :: 0 <= b < |rest| ==> rest[b].scenario.Some? && Less(keys[0], rest[b].scenario.value)
  {
    forall b | 0 <= b < |rest| ensures rest[b].scenario.Some? && Less(keys[0], rest[b].scenario.value) {
      assert rest[b] in rest;
      var n :| 0 <= n < |keys[1..]| && keys[1..][n] == rest[b].scenario.value;
      assert keys[n + 1] == rest[b].scenario.value;
    }
  }

  lemma {:induction false} TextKeyRowsOrdered(i: Ident, text: Table, keys: seq<string>, scenarios: seq<string>, dataFiles: set<string>)
    requires forall k :: k in keys ==> k in text && '.' in k
    requires StrictlySorted(keys)
    ensures TextOrdered(TextKeyRows(i, text, keys, scenarios, dataFiles))
  {
    if keys != [] {
      var k := keys[0];
      var parts := SplitFirst(k);
      var here := if Included(parts.0, parts.1, scenarios, dataFiles)
                  then ValueRows(i, text[k], SortedKeys(text[k].Keys), Some(k), false) else [];
      var rest := TextKeyRows(i, text, keys[1..], scenarios, dataFiles);
      assert TextKeyRows(i, text, keys, scenarios, dataFiles) == here + rest;
      ValueRowsSorted(i, text[k], SortedKeys(text[k].Keys), Some(k), false);
      TextKeyRowsOrdered(i, text, keys[1..], scenarios, dataFiles);
      TagsOfHere(here, k);
      TagsAfterHead(rest, keys);
      OrderedConcat(here, rest, k);
    }
  }

  /** The text rows of an object are ordered by key, then by value key. */
  lemma TextRecordsOrdered(i: Ident, text: Table, scenarios: seq<string>, dataFiles: set<string>)
    requires forall k :: k in text ==> '.' in k
    ensures TextOrdered(TextRecords(i, text, scenarios, dataFiles))
  {
    TextKeyRowsOrdered(i, text, SortedKeys(text.Keys), scenarios, dataFiles);
  }
}

=== FILE: pipeline.dfy ===
/** The three stages chained as the module's usage note chains them:
    resolve the scope, flatten it, pivot the stream. */
module Pipeline {
  import opened Wrappers
  import opened Seqs
  import opened ObjectStore
  import opened ScopeResolver
  import opened Flattener
  import opened PivotWriter

  datatype ExportError = ResolveFailed(resolveError: ResolveError) | FlattenFailed(flattenError: FlattenError)

  /** The flat stream of a resolved scope; the store lookups it performs
      succeed because resolution only yields stored identities. */
  function ExportStream(st: Store, models: seq<string>, filterVal: string, filterCls: string)
    : (r: Result<seq<Record>, ExportError>)
    requires WellFormed(st)
    ensures models == [""] ==> r == Failure(ResolveFailed(NoModelGiven))
    ensures r.Success? ==> Resolve(st, models, filterVal, filterCls).Success? && r.value != []
    ensures r.Success? ==> forall k :: 0 <= k < |r.value| ==> !r.value[k].value.List?
    ensures r.Success? ==>
              var sc := Resolve(st, models, filterVal, filterCls).value;
              r.value == NormalizeValues(StreamRecords(st, sc, sc.objects))
  {
    match Resolve(st, models, filterVal, filterCls)
    case Failure(e) => Failure(ResolveFailed(e))
    case Success(sc) =>
      match Flatten(st, sc)
      case Failure(e) => Failure(FlattenFailed(e))
      case Success(d) => Success(d)
  }

  /** The per-class tables `write_tables` would write. */
  function Export(st: Store, models: seq<string>, filterVal: string, filterCls: string)
    : (r: Result<map<string, Grid>, ExportError>)
    requires WellFormed(st)
    ensures models == [""] ==> r == Failure(ResolveFailed(NoModelGiven))
    ensures r.Success? <==> ExportStream(st, models, filterVal, filterCls).Success?
    ensures r.Success? ==> r.value == Pivot(ExportStream(st, models, filterVal, filterCls).value)
    ensures r.Success? ==> r.value != map[]
  {
    match ExportStream(st, models, filterVal, filterCls)
    case Failure(e) => Failure(e)
    case Success(d) =>
      assert d[0].cls in Classes(d);
      Success(Pivot(d))
  }

  lemma NormalizeValuesAppend(a: seq<Record>, b: seq<Record>)
    ensures NormalizeValues(a + b) == NormalizeValues(a) + NormalizeValues(b)
  {
  }

  /** Rows that all belong to another identity contribute nothing to the
      group of `i`. */
  lemma {:induction false} ForeignRowsDoNotGroup(rs: seq<Record>, j: Ident, i: Ident, p: string)
    requires Owned(rs, j) && j != i
    ensures GroupValues(NormalizeValues(rs), i.cls, i.name, p) == []
  {
  }

  /** In a duplicate-free identity list, the group of (class, object,
      property) of an identity `i` is made of `i`'s own rows only. */
  lemma {:induction false} StreamGroupIsOwn(st: Store, sc: Scope, objs: seq<Ident>, i: Ident, p: string)
    requires WellFormed(st)
    requires forall j :: j in objs ==> j in st.objects || j == SystemRoot
    requires NoDup(objs) && i in objs
    ensures GroupValues(NormalizeValues(StreamRecords(st, sc, objs)), i.cls, i.name, p)
            == GroupValues(NormalizeValues(ObjectRecords(st, sc, i)), i.cls, i.name, p)
  {
    var head := ObjectRecords(st, sc, objs[0]);
    var rest := StreamRecords(st, sc, objs[1..]);
    assert StreamRecords(st, sc, objs) == head + rest;
    NormalizeValuesAppend(head, rest);
    GroupValuesAppend(NormalizeValues(head), NormalizeValues(rest), i.cls, i.name, p);
    assert forall q :: q in objs <==> q == objs[0] || q in objs[1..];
    if objs[0] == i {
      assert i !in objs[1..];
      RowsOfAbsentIdent(st, sc, objs[1..], i, p);
    } else {
      ForeignRowsDoNotGroup(head, objs[0], i, p);
      assert NoDup(objs[1..]) by {
        forall a, b | 0 <= a < b < |objs[1..]| ensures objs[1..][a] != objs[1..][b] {
          assert objs[1..][a] == objs[a + 1] && objs[1..][b] == objs[b + 1];
        }
      }
      StreamGroupIsOwn(st, sc, objs[1..], i, p);
    }
  }

  lemma {:induction false} RowsOfAbsentIdent(st: Store, sc: Scope, objs: seq<Ident>, i: Ident, p: string)
    requires WellFormed(st)
    requires forall j :: j in objs ==> j in st.objects || j == SystemRoot
    requires i !in objs
    ensures GroupValues(NormalizeValues(StreamRecords(st, sc, objs)), i.cls, i.name, p) == []
  {
    if objs != [] {
      var head := ObjectRecords(st, sc, objs[0]);
      var rest := StreamRecords(st, sc, objs[1..]);
      assert StreamRecords(st, sc, objs) == head + rest;
      NormalizeValuesAppend(head, rest);
      GroupValuesAppend(NormalizeValues(head), NormalizeValues(rest), i.cls, i.name, p);
      ForeignRowsDoNotGroup(head, objs[0], i, p);
      RowsOfAbsentIdent(st, sc, objs[1..], i, p);
    }
  }

  /** Every row of the stream belongs to an identity of the list other than
      the System.System sentinel. */
  lemma {:induction false} StreamRowsOwned(st: Store, sc: Scope, objs: seq<Ident>)
    requires WellFormed(st)
    requires forall j :: j in objs ==> j in st.objects || j == SystemRoot
    ensures forall rec :: rec in StreamRecords(st, sc, objs) ==>
              exists j :: j in objs && j != SystemRoot && rec.cls == j.cls && rec.obj == j.name
  {
    if objs != [] {
      var head := ObjectRecords(st, sc, objs[0]);
      var rest := StreamRecords(st, sc, objs[1..]);
      assert StreamRecords(st, sc, objs) == head + rest;
      StreamRowsOwned(st, sc, objs[1..]);
      forall rec | rec in StreamRecords(st, sc, objs)
        ensures exists j :: j in objs && j != SystemRoot && rec.cls == j.cls && rec.obj == j.name
      {
        if rec in head {
          assert objs[0] != SystemRoot && objs[0] in objs;
        } else {
          var j :| j in objs[1..] && j != SystemRoot && rec.cls == j.cls && rec.obj == j.name;
          assert j in objs;
        }
      }
    }
  }

  /** Every row an identity of the list produces is in the stream. */
  lemma {:induction false} OwnRowsInStream(st: Store, sc: Scope, objs: seq<Ident>)
    requires WellFormed(st)
    requires forall j :: j in objs ==> j in st.objects || j == SystemRoot
    ensures forall i, rec :: i in objs && rec in ObjectRecords(st, sc, i) ==> rec in StreamRecords(st, sc, objs)
  {
    if objs != [] {
      assert StreamRecords(st, sc, objs) == ObjectRecords(st, sc, objs[0]) + StreamRecords(st, sc, objs[1..]);
      OwnRowsInStream(st, sc, objs[1..]);
      forall i, rec | i in objs && rec in ObjectRecords(st, sc, i)
        ensures rec in StreamRecords(st, sc, objs)
      {
        if i != objs[0] {
          assert i in objs[1..];
        }
      }
    }
  }

  /** For an identity in scope, each cell of its table row holds exactly
      its own rows' values, normalised and in the order the flattener emits
      them: deduplication guarantees no other row feeds that cell. */
  lemma ScopedCellIsOwnRows(st: Store, models: seq<string>, filterVal: string, filterCls: string)
    requires WellFormed(st)
    requires models != [""] && forall m :: m in models ==> ModelIdent(m) in st.objects
    ensures var sc := Resolve(st, models, filterVal, filterCls).value;
            ExportStream(st, models, filterVal, filterCls).Success? ==>
            forall i, p :: i in sc.objects ==>
              GroupValues(ExportStream(st, models, filterVal, filterCls).value, i.cls, i.name, p)
              == GroupValues(NormalizeValues(ObjectRecords(st, sc, i)), i.cls, i.name, p)
  {
    var sc := Resolve(st, models, filterVal, filterCls).value;
    forall i, p | i in sc.objects
      ensures GroupValues(NormalizeValues(StreamRecords(st, sc, sc.objects)), i.cls, i.name, p)
              == GroupValues(NormalizeValues(ObjectRecords(st, sc, i)), i.cls, i.name, p)
    {
      StreamGroupIsOwn(st, sc, sc.objects, i, p);
    }
  }

  lemma NoSentinelRows(st: Store, sc: Scope, objs: seq<Ident>)
    requires WellFormed(st)
    requires forall j :: j in objs ==> j in st.objects || j == SystemRoot
    ensures forall rec :: rec in NormalizeValues(StreamRecords(st, sc, objs)) ==>
              !(rec.cls == "System" && rec.obj == "System")
  {
    var raw := StreamRecords(st, sc, objs);
    var d := NormalizeValues(raw);
    StreamRowsOwned(st, sc, objs);
    forall rec | rec in d
      ensures !(rec.cls == "System" && rec.obj == "System")
    {
      var k :| 0 <= k < |d| && d[k] == rec;
      assert raw[k] in raw;
    }
  }

  /** The System.System sentinel never gets a table row. */
  lemma SystemRootNotExported(st: Store, models: seq<string>, filterVal: string, filterCls: string)
    requires WellFormed(st)
    ensures Export(st, models, filterVal, filterCls).Success? ==>
              var tables := Export(st, models, filterVal, filterCls).value;
              "System" in tables ==> "System" !in tables["System"]
  {
    if Export(st, models, filterVal, filterCls).Failure? {
      return;
    }
    var sc := Resolve(st, models, filterVal, filterCls).value;
    var d := ExportStream(st, models, filterVal, filterCls).value;
    NoSentinelRows(st, sc, sc.objects);
    assert "System" !in Rows(d, "System");
  }

  /** One row of one resolved identity is enough for the export to
      succeed. */
  lemma RowMakesExport(st: Store, models: seq<string>, filterVal: string, filterCls: string)
    requires WellFormed(st)
    requires models != [""] && forall m :: m in models ==> ModelIdent(m) in st.objects
    ensures var sc := Resolve(st, models, filterVal, filterCls).value;
            forall i, rec :: i in sc.objects && rec in ObjectRecords(st, sc, i) ==>
              ExportStream(st, models, filterVal, filterCls).Success?
              && Export(st, models, filterVal, filterCls).Success?
  {
    var sc := Resolve(st, models, filterVal, filterCls).value;
    RowMakesFlatten(st, sc);
    forall i, rec | i in sc.objects && rec in ObjectRecords(st, sc, i)
      ensures ExportStream(st, models, filterVal, filterCls).Success?
              && Export(st, models, filterVal, filterCls).Success?
    {
      assert Flatten(st, sc).Success?;
    }
  }

  lemma RowMakesFlatten(st: Store, sc: Scope)
    requires WellFormed(st)
    requires forall j :: j in sc.objects ==> j in st.objects || j == SystemRoot
    ensures forall i, rec :: i in sc.objects && rec in ObjectRecords(st, sc, i) ==> Flatten(st, sc).Success?
  {
    forall i, rec | i in sc.objects && rec in ObjectRecords(st, sc, i)
      ensures Flatten(st, sc).Success?
    {
      assert ObjectRecords(st, sc, i) != [];
      assert StreamRecords(st, sc, sc.objects) != [];
    }
  }

  /** A list value an in-scope object carries reaches its table cell as a
      tuple of the same items in the same order. */
  lemma ListBecomesTupleInCell(st: Store, models: seq<string>, filterVal: string, filterCls: string)
    requires WellFormed(st)
    requires models != [""] && forall m :: m in models ==> ModelIdent(m) in st.objects
    ensures var sc := Resolve(st, models, filterVal, filterCls).value;
            forall i, rec :: i in sc.objects && rec in ObjectRecords(st, sc, i) && rec.value.List? ==>
              && Export(st, models, filterVal, filterCls).Success?
              && var tables := Export(st, models, filterVal, filterCls).value;
              && rec.cls in tables && rec.obj in tables[rec.cls] && rec.property in tables[rec.cls][rec.obj]
              && tables[rec.cls][rec.obj][rec.property].Filled?
              && Tuple(rec.value.items) in tables[rec.cls][rec.obj][rec.property].values
  {
    var sc := Resolve(st, models, filterVal, filterCls).value;
    RowMakesExport(st, models, filterVal, filterCls);
    CellHoldsTuple(st, sc);
    forall i, rec | i in sc.objects && rec in ObjectRecords(st, sc, i) && rec.value.List?
      ensures && Export(st, models, filterVal, filterCls).Success?
              && var tables := Export(st, models, filterVal, filterCls).value;
              && rec.cls in tables && rec.obj in tables[rec.cls] && rec.property in tables[rec.cls][rec.obj]
              && tables[rec.cls][rec.obj][rec.property].Filled?
              && Tuple(rec.value.items) in tables[rec.cls][rec.obj][rec.property].values
    {
      assert Export(st, models, filterVal, filterCls).value
             == Pivot(NormalizeValues(StreamRecords(st, sc, sc.objects)));
    }
  }

  lemma CellHoldsTuple(st: Store, sc: Scope)
    requires WellFormed(st)
    requires forall j :: j in sc.objects ==> j in st.objects || j == SystemRoot
    ensures var tables := Pivot(NormalizeValues(StreamRecords(st, sc, sc.objects)));
            forall i, rec :: i in sc.objects && rec in ObjectRecords(st, sc, i) && rec.value.List? ==>
              && rec.cls in tables && rec.obj in tables[rec.cls] && rec.property in tables[rec.cls][rec.obj]
              && tables[rec.cls][rec.obj][rec.property].Filled?
              && Tuple(rec.value.items) in tables[rec.cls][rec.obj][rec.property].values
  {
    var raw := StreamRecords(st, sc, sc.objects);
    OwnRowsInStream(st, sc, sc.objects);
    forall i, rec | i in sc.objects && rec in ObjectRecords(st, sc, i) && rec.value.List?
      ensures && rec.cls in Pivot(NormalizeValues(raw))
              && rec.obj in Pivot(NormalizeValues(raw))[rec.cls]
              && rec.property in Pivot(NormalizeValues(raw))[rec.cls][rec.obj]
              && Pivot(NormalizeValues(raw))[rec.cls][rec.obj][rec.property].Filled?
              && Tuple(rec.value.items) in Pivot(NormalizeValues(raw))[rec.cls][rec.obj][rec.property].values
    {
      TupleInCell(raw, rec);
    }
  }

  /** A list-valued row of the raw stream shows up, as a tuple, in the cell
      of its class, object and property once the stream is normalised and
      pivoted. */
  lemma TupleInCell(raw: seq<Record>, rec: Record)
    requires rec in raw && rec.value.List?
    ensures var tables := Pivot(NormalizeValues(raw));
            && rec.cls in tables && rec.obj in tables[rec.cls] && rec.property in tables[rec.cls][rec.obj]
            && tables[rec.cls][rec.obj][rec.property].Filled?
            && Tuple(rec.value.items) in tables[rec.cls][rec.obj][rec.property].values
  {
    var d := NormalizeValues(raw);
    var k :| 0 <= k < |raw| && raw[k] == rec;
    assert d[k] == rec.(value := Tuple(rec.value.items));
    RowInItsCell(d, k);
  }
}

=== FILE: pivot.dfy ===
/** The pivot of `write_tables`: per class, group the flat rows by (object,
    property), collect each group's values in stream order into a tuple, and
    spread them over an object-by-property grid with '' in empty cells. */
module PivotWriter {
  import opened ObjectStore
  import opened Flattener

  /** A grid cell: '' when no row fills it, otherwise the tuple of values. */
  datatype Cell = Blank | Filled(values: seq<Value>)

  /** Object name to property name to cell. */
  type Grid = map<string, map<string, Cell>>

  predicate Matches(rec: Record, c: string, o: string, p: string)
  {
    rec.cls == c && rec.obj == o && rec.property == p
  }

  /** The values of the rows of class `c`, object `o`, property `p`, in
      stream order. */
  function GroupValues(d: seq<Record>, c: string, o: string, p: string): (vs: seq<Value>)
    ensures |vs| <= |d|
    ensures vs == [] <==> forall k :: 0 <= k < |d| ==> !Matches(d[k], c, o, p)
    ensures forall v :: v in vs ==> exists k :: 0 <= k < |d| && Matches(d[k], c, o, p) && d[k].value == v
  {
    if d == [] then []
    else
      var rest := GroupValues(d[1..], c, o, p);
      assert forall k :: 1 <= k < |d| ==> d[k] == d[1..][k - 1];
      if Matches(d[0], c, o, p) then [d[0].value] + rest else rest
  }

  /** Grouping respects the stream: the group of a concatenation is the
      group of the first part followed by the group of the second. */
  lemma {:induction false} GroupValuesAppend(a: seq<Record>, b: seq<Record>, c: string, o: string, p: string)
    ensures GroupValues(a + b, c, o, p) == GroupValues(a, c, o, p) + GroupValues(b, c, o, p)
  {
    if a == [] {
      assert a + b == b;
    } else {
      assert (a + b)[1..] == a[1..] + b;
      GroupValuesAppend(a[1..], b, c, o, p);
    }
  }

  function Classes(d: seq<Record>): set<string>
  {
    set rec | rec in d :: rec.cls
  }

  function Rows(d: seq<Record>, c: string): set<string>
  {
    set rec | rec in d && rec.cls == c :: rec.obj
  }

  function Columns(d: seq<Record>, c: string): set<string>
  {
    set rec | rec in d && rec.cls == c :: rec.property
  }

  /** The cell at row `o`, column `p` of the grid of class `c`: '' exactly
      when no row of that class, object and property exists, otherwise
      those rows' values in stream order. */
  function CellOf(d: seq<Record>, c: string, o: string, p: string): (cell: Cell)
    ensures cell.Blank? <==> forall k :: 0 <= k < |d| ==> !Matches(d[k], c, o, p)
    ensures cell.Filled? ==> cell.values == GroupValues(d, c, o, p)
  {
    var vs := GroupValues(d, c, o, p);
    if vs == [] then Blank else Filled(vs)
  }

  /** One grid per class present in the stream; each grid has a row per
      object and a column per property of that class. */
  function Pivot(d: seq<Record>): (tables: map<string, Grid>)
    ensures tables.Keys == Classes(d)
    ensures forall c :: c in tables ==> tables[c].Keys == Rows(d, c)
    ensures forall c, o :: c in tables && o in tables[c] ==> tables[c][o].Keys == Columns(d, c)
    ensures forall c, o, p :: c in tables && o in tables[c] && p in tables[c][o] ==>
              tables[c][o][p] == CellOf(d, c, o, p)
  {
    map c | c in Classes(d) :: map o | o in Rows(d, c) :: map p | p in Columns(d, c) :: CellOf(d, c, o, p)
  }

  /** Every row lands in the grid of its class, in the row of its object and
      the column of its property, and its value is in that cell. */
  lemma RowInItsCell(d: seq<Record>, k: nat)
    requires k < |d|
    ensures && d[k].cls in Pivot(d)
            && d[k].obj in Pivot(d)[d[k].cls]
            && d[k].property in Pivot(d)[d[k].cls][d[k].obj]
            && Pivot(d)[d[k].cls][d[k].obj][d[k].property].Filled?
            && d[k].value in Pivot(d)[d[k].cls][d[k].obj][d[k].property].values
  {
    var rec := d[k];
    assert rec in d;
    GroupValuesAppend(d[..k], d[k..], rec.cls, rec.obj, rec.property);
    assert d == d[..k] + d[k..];
    assert d[k..] == [rec] + d[k + 1..];
    GroupValuesAppend([rec], d[k + 1..], rec.cls, rec.obj, rec.property);
  }
}

=== FILE: scope.dfy ===
/** Scope resolution (`get_model_items`): which identities a model export
    covers, which scenarios it activates and which data files it knows. */
module ScopeResolver {
  import opened Wrappers
  import opened Seqs
  import opened ObjectStore

  datatype ResolveError =
    | NoModelGiven              // the model list is `[""]`: `sys.exit`
    | UnknownModel(model: string) // `coad['Model'][mod]` finds no such model

  /** What resolution hands to the flattener. */
  datatype Scope = Scope(objects: seq<Ident>, scenarios: seq<string>, dataFiles: set<string>, models: seq<string>)

  /** The one fallback filter class: Region goes to Zone, anything else to Region. */
  function Toggle(cls: string): string
  {
    if cls == "Region" then "Zone" else "Region"
  }

  /** The region roots whose neighbourhood is pulled into scope. A filter value
      is looked up under the filter class and then, once, under the toggled
      class; a miss, or no filter value, makes every object of the class in
      use a root. */
  function RegionRoots(st: Store, filterCls: string, filterVal: string): (roots: set<Ident>)
    ensures roots <= st.objects.Keys
    ensures forall r :: r in roots ==> r.cls == filterCls || r.cls == Toggle(filterCls)
    ensures filterVal == "" ==> roots == OfClass(st, filterCls)
    ensures filterVal != "" && Ident(filterCls, filterVal) in st.objects ==>
              roots == {Ident(filterCls, filterVal)}
    ensures filterVal != "" && Ident(filterCls, filterVal) !in st.objects ==>
              if Ident(Toggle(filterCls), filterVal) in st.objects
              then roots == {Ident(Toggle(filterCls), filterVal)}
              else roots == OfClass(st, Toggle(filterCls))
  {
    if filterVal == "" then OfClass(st, filterCls)
    else if Ident(filterCls, filterVal) in st.objects then {Ident(filterCls, filterVal)}
    else
      var cls := Toggle(filterCls);
      if Ident(cls, filterVal) in st.objects then {Ident(cls, filterVal)}
      else OfClass(st, cls)
  }

  function ModelIdent(m: string): Ident
  {
    Ident("Model", m)
  }

  /** `get_children('Scenario')` of a model. */
  function ScenarioChildren(st: Store, m: string): set<Ident>
  {
    set i | i in Children(st, ModelIdent(m)) && i.cls == "Scenario"
  }

  /** The membership rows: for each model in turn, its children other than scenarios. */
  function MemberRows(st: Store, models: seq<string>): (rows: seq<Ident>)
    requires WellFormed(st)
    ensures forall i :: i in rows <==>
              exists m :: m in models && i in Children(st, ModelIdent(m)) && i.cls != "Scenario"
  {
    if models == [] then []
    else
      RelativesAreStored(st, ModelIdent(models[0]));
      var settings := Children(st, ModelIdent(models[0])) - ScenarioChildren(st, models[0]);
      var rest := MemberRows(st, models[1..]);
      assert forall m :: m in models <==> m == models[0] || m in models[1..];
      Listing(settings) + rest
  }

  function Names(ids: seq<Ident>): (names: seq<string>)
    ensures |names| == |ids|
    ensures forall k :: 0 <= k < |ids| ==> names[k] == ids[k].name
  {
    seq(|ids|, k requires 0 <= k < |ids| => ids[k].name)
  }

  /** The scenario list: for each model in turn, the names of its Scenario
      children, appended without removing repeats. */
  function ScenarioNames(st: Store, models: seq<string>): (names: seq<string>)
    requires WellFormed(st)
    ensures forall x :: x in names <==>
              exists m :: m in models && Ident("Scenario", x) in Children(st, ModelIdent(m))
  {
    if models == [] then []
    else
      RelativesAreStored(st, ModelIdent(models[0]));
      var scen := Listing(ScenarioChildren(st, models[0]));
      var rest := ScenarioNames(st, models[1..]);
      assert forall m :: m in models <==> m == models[0] || m in models[1..];
      NamesOfClass(scen, ScenarioChildren(st, models[0]), "Scenario");
      Names(scen) + rest
  }

  lemma NamesOfClass(ids: seq<Ident>, s: set<Ident>, cls: string)
    requires forall i :: i in ids <==> i in s
    requires forall i :: i in s ==> i.cls == cls
    ensures forall x :: x in Names(ids) <==> Ident(cls, x) in s
  {
    forall x | x in Names(ids)
      ensures Ident(cls, x) in s
    {
      var k :| 0 <= k < |ids| && Names(ids)[k] == x;
      assert ids[k] in s;
    }
    forall x | Ident(cls, x) in s
      ensures x in Names(ids)
    {
      var k :| 0 <= k < |ids| && ids[k] == Ident(cls, x);
      assert Names(ids)[k] == x;
    }
  }

  /** Rows contributed by one parent `p` of a region root: `p` itself, its
      children unless it is named "System", and its own parents. */
  predicate ReachedFrom(st: Store, p: Ident, x: Ident)
  {
    x == p || x in Parents(st, p) || (p.name != "System" && x in Children(st, p))
  }

  /** The rows one parent `p` contributes, in accumulation order. */
  function Neighbours(st: Store, p: Ident): (rows: seq<Ident>)
    requires WellFormed(st) && p in st.objects
    ensures forall x :: x in rows <==> ReachedFrom(st, p, x)
  {
    RelativesAreStored(st, p);
    var siblings := if p.name != "System" then Listing(Children(st, p)) else [];
    var ups := Listing(Parents(st, p));
    [p] + siblings + ups
  }

  function ParentRows(st: Store, ps: seq<Ident>): (rows: seq<Ident>)
    requires WellFormed(st)
    requires forall k :: 0 <= k < |ps| ==> ps[k] in st.objects
    ensures forall x :: x in rows <==> exists p :: p in ps && ReachedFrom(st, p, x)
  {
    if ps == [] then []
    else
      var here := Neighbours(st, ps[0]);
      var rest := ParentRows(st, ps[1..]);
      assert forall x :: x in here + rest <==> exists p :: p in ps && ReachedFrom(st, p, x) by {
        forall x | x in here + rest
          ensures exists p :: p in ps && ReachedFrom(st, p, x)
        {
          if x in here {
            assert ps[0] in ps && ReachedFrom(st, ps[0], x);
          } else {
            var p :| p in ps[1..] && ReachedFrom(st, p, x);
            assert p in ps;
          }
        }
        forall x | exists p :: p in ps && ReachedFrom(st, p, x)
          ensures x in here + rest
        {
          var p :| p in ps && ReachedFrom(st, p, x);
          if p != ps[0] {
            assert p in ps[1..];
          }
        }
      }
      here + rest
  }

  /** The closure rows of the region roots, root by root. */
  function RegionRows(st: Store, roots: seq<Ident>): (rows: seq<Ident>)
    requires WellFormed(st)
    ensures forall x :: x in rows <==>
              exists r, p :: r in roots && p in Parents(st, r) && ReachedFrom(st, p, x)
  {
    if roots == [] then []
    else
      RelativesAreStored(st, roots[0]);
      var here := ParentRows(st, Listing(Parents(st, roots[0])));
      var rest := RegionRows(st, roots[1..]);
      assert forall r :: r in roots <==> r == roots[0] || r in roots[1..];
      here + rest
  }

  /** An identity the export covers, stated independently of the order of
      accumulation: a non-scenario member of a requested model, any data
      file, or a neighbour of a parent of a region root. */
  ghost predicate InScope(st: Store, models: seq<string>, roots: set<Ident>, x: Ident)
  {
    || (exists m :: m in models && x in Children(st, ModelIdent(m)) && x.cls != "Scenario")
    || x in OfClass(st, "Data File")
    || (exists r, p :: r in roots && p in Parents(st, r) && ReachedFrom(st, p, x))
  }

  /** Every pair accumulated before deduplication, in accumulation order. */
  function Accumulated(st: Store, models: seq<string>, roots: set<Ident>): (acc: seq<Ident>)
    requires WellFormed(st)
    requires roots <= st.objects.Keys
    ensures forall x :: x in acc <==> InScope(st, models, roots, x)
  {
    MemberRows(st, models) + Listing(OfClass(st, "Data File")) + RegionRows(st, Listing(roots))
  }

  /** The accumulated pairs with duplicates dropped, first occurrence kept. */
  function ScopeObjects(st: Store, models: seq<string>, roots: set<Ident>): (objects: seq<Ident>)
    requires WellFormed(st)
    requires roots <= st.objects.Keys
    ensures NoDup(objects)
    ensures forall x :: x in objects <==> InScope(st, models, roots, x)
    ensures forall x :: x in objects ==> x in st.objects
  {
    var acc := Accumulated(st, models, roots);
    DedupMembers(acc);
    ScopeIsStored(st, models, roots);
    Dedup(acc)
  }

  lemma DedupMembers(s: seq<Ident>)
    ensures forall x :: x in Dedup(s) <==> x in s
  {
    var r := Dedup(s);
    forall x | x in s ensures x in r {
      var k :| 0 <= k < |s| && s[k] == x;
    }
    forall x | x in r ensures x in s {
      var k :| 0 <= k < |r| && r[k] == x;
    }
  }

  lemma ScopeIsStored(st: Store, models: seq<string>, roots: set<Ident>)
    requires WellFormed(st)
    ensures forall x :: InScope(st, models, roots, x) ==> x in st.objects
  {
    forall x | InScope(st, models, roots, x) ensures x in st.objects {
      InScopeIsStored(st, models, roots, x);
    }
  }

  /** The first requested model, in list order, that the store does not hold:
      the one whose `coad['Model'][mod]` lookup raises first. */
  function MissingModel(st: Store, models: seq<string>): (missing: Option<string>)
    ensures missing.None? <==> forall m :: m in models ==> ModelIdent(m) in st.objects
    ensures missing.Some? ==> missing.value in models && ModelIdent(missing.value) !in st.objects
    ensures missing.Some? ==>
              forall m :: m in models[..FirstIndex(models, missing.value)] ==> ModelIdent(m) in st.objects
  {
    if models == [] then None
    else if ModelIdent(models[0]) !in st.objects then Some(models[0])
    else
      assert forall m :: m in models <==> m == models[0] || m in models[1..];
      var rest := MissingModel(st, models[1..]);
      if rest.Some? then
        assert models[0] != rest.value;
        assert models[..FirstIndex(models, rest.value)]
            == [models[0]] + models[1..][..FirstIndex(models[1..], rest.value)];
        rest
      else rest
  }

  /** `get_model_items(coad, models, filter_val, filter_cls)`. */
  function Resolve(st: Store, models: seq<string>, filterVal: string, filterCls: string)
    : (r: Result<Scope, ResolveError>)
    requires WellFormed(st)
    ensures models == [""] ==> r == Failure(NoModelGiven)
    ensures r.Success? <==> models != [""] && forall m :: m in models ==> ModelIdent(m) in st.objects
    ensures models != [""] && r.Failure? ==> r.error.UnknownModel?
    ensures r.Failure? && r.error.UnknownModel? ==>
              r.error.model in models && ModelIdent(r.error.model) !in st.objects &&
              forall m :: m in models[..FirstIndex(models, r.error.model)] ==> ModelIdent(m) in st.objects
    ensures r.Success? ==> NoDup(r.value.objects) && r.value.models == models
    ensures r.Success? ==> forall x :: x in r.value.objects ==> x in st.objects
    ensures r.Success? ==> forall x :: x in r.value.objects <==>
              InScope(st, models, RegionRoots(st, filterCls, filterVal), x)
    ensures r.Success? ==> r.value.scenarios == ScenarioNames(st, models)
    ensures r.Success? ==> forall x :: x in r.value.scenarios <==>
              exists m :: m in models && Ident("Scenario", x) in Children(st, ModelIdent(m))
    ensures r.Success? ==> forall n :: n in r.value.dataFiles <==> Ident("Data File", n) in st.objects
  {
    var roots := RegionRoots(st, filterCls, filterVal);
    if models == [""] then Failure(NoModelGiven)
    else match MissingModel(st, models)
      case Some(m) => Failure(UnknownModel(m))
      case None =>
        var objects := ScopeObjects(st, models, roots);
        var dataFiles := set i | i in OfClass(st, "Data File") :: i.name;
        Success(Scope(objects, ScenarioNames(st, models), dataFiles, models))
  }

  /** The scenario list is extended model by model: the list for `a + b` is
      the list for `a` followed by the list for `b`, repeats kept. */
  lemma {:induction false} ScenarioNamesAppend(st: Store, a: seq<string>, b: seq<string>)
    requires WellFormed(st)
    ensures ScenarioNames(st, a + b) == ScenarioNames(st, a) + ScenarioNames(st, b)
  {
    if a != [] {
      assert (a + b)[0] == a[0] && (a + b)[1..] == a[1..] + b;
      ScenarioNamesStep(st, a + b);
      ScenarioNamesStep(st, a);
      ScenarioNamesAppend(st, a[1..], b);
      ConcatAssoc(ScenarioNames(st, [a[0]]), ScenarioNames(st, a[1..]), ScenarioNames(st, b));
    } else {
      assert a + b == b;
    }
  }

  /** One unfolding of the scenario list: the first model's share, then the rest. */
  lemma ScenarioNamesStep(st: Store, models: seq<string>)
    requires WellFormed(st) && models != []
    ensures ScenarioNames(st, models) == ScenarioNames(st, [models[0]]) + ScenarioNames(st, models[1..])
  {
    assert [models[0]][1..] == [];
  }

  /** One model lists each of its Scenario children once: the children
      form a set, so no name repeats within one model's share of the list. */
  lemma ScenarioNamesOfOne(st: Store, m: string)
    requires WellFormed(st)
    ensures NoDup(ScenarioNames(st, [m]))
  {
    RelativesAreStored(st, ModelIdent(m));
    var scen := Listing(ScenarioChildren(st, m));
    assert [m][1..] == [];
    assert ScenarioNames(st, [m]) == Names(scen) + [];
    forall a, b | 0 <= a < b < |scen|
      ensures Names(scen)[a] != Names(scen)[b]
    {
      assert scen[a] in scen && scen[b] in scen;
      assert scen[a].cls == "Scenario" && scen[b].cls == "Scenario";
    }
  }

  /** Every in-scope identity is a stored object, so the flattener's
      lookup `coad[cls][name]` succeeds on each resolved row. */
  lemma InScopeIsStored(st: Store, models: seq<string>, roots: set<Ident>, x: Ident)
    requires WellFormed(st)
    requires InScope(st, models, roots, x)
    ensures x in st.objects
  {
    if exists m :: m in models && x in Children(st, ModelIdent(m)) && x.cls != "Scenario" {
      var m :| m in models && x in Children(st, ModelIdent(m)) && x.cls != "Scenario";
      RelativesAreStored(st, ModelIdent(m));
    } else if x !in OfClass(st, "Data File") {
      var r, p :| r in roots && p in Parents(st, r) && ReachedFrom(st, p, x);
      RelativesAreStored(st, r);
      RelativesAreStored(st, p);
    }
  }

  /** Around every region root `r`: each parent `p` of `r` and each parent of
      `p` are in scope, and so are the children of `p` unless `p` is named
      "System". */
  lemma RegionClosure(st: Store, models: seq<string>, filterVal: string, filterCls: string, r: Ident, p: Ident)
    requires WellFormed(st)
    requires models != [""] && forall m :: m in models ==> ModelIdent(m) in st.objects
    requires r in RegionRoots(st, filterCls, filterVal) && p in Parents(st, r)
    ensures p in Resolve(st, models, filterVal, filterCls).value.objects
    ensures Parents(st, p) <= set x | x in Resolve(st, models, filterVal, filterCls).value.objects
    ensures p.name != "System" ==>
              Children(st, p) <= set x | x in Resolve(st, models, filterVal, filterCls).value.objects
  {
    var roots := RegionRoots(st, filterCls, filterVal);
    assert ReachedFrom(st, p, p);
    forall x | x in Parents(st, p) ensures ReachedFrom(st, p, x) { }
    forall x | p.name != "System" && x in Children(st, p) ensures ReachedFrom(st, p, x) { }
  }

  /** Every data file is in scope and in the data-file list, whatever models
      are requested. */
  lemma DataFilesInScope(st: Store, models: seq<string>, filterVal: string, filterCls: string, n: string)
    requires WellFormed(st)
    requires models != [""] && forall m :: m in models ==> ModelIdent(m) in st.objects
    requires Ident("Data File", n) in st.objects
    ensures n in Resolve(st, models, filterVal, filterCls).value.dataFiles
    ensures Ident("Data File", n) in Resolve(st, models, filterVal, filterCls).value.objects
  {
    assert Ident("Data File", n) in OfClass(st, "Data File");
  }
}

=== FILE: seqs.dfy ===
/** Generic facts about sequences: distinctness and keep-first deduplication. */
module Seqs {

  /** No element occurs twice. */
  predicate NoDup<T(==)>(s: seq<T>)
  {
    forall i, j :: 0 <= i < j < |s| ==> s[i] != s[j]
  }

  /** Index of the first occurrence of `x` in `s`. */
  function FirstIndex<T(==)>(s: seq<T>, x: T): (k: nat)
    requires x in s
    ensures k < |s| && s[k] == x && x !in s[..k]
  {
    if s[0] == x then 0 else 1 + FirstIndex(s[1..], x)
  }

  /** Deduplication that keeps the first occurrence of every element, the
      behaviour of `drop_duplicates()` with its default `keep='first'`. */
  function Dedup<T(==)>(s: seq<T>): (r: seq<T>)
    ensures NoDup(r)
    ensures forall k :: 0 <= k < |s| ==> s[k] in r
    ensures forall k :: 0 <= k < |r| ==> r[k] in s
    ensures forall i, j :: 0 <= i < j < |r| ==> FirstIndex(s, r[i]) < FirstIndex(s, r[j])
  {
    if |s| == 0 then []
    else
      var init := s[..|s| - 1];
      var last := s[|s| - 1];
      var d := Dedup(init);
      assert s == init + [last];
      FirstIndexExtend(init, last);
      if last in d then d
      else
        assert last !in init;
        FirstIndexFresh(init, last);
        d + [last]
  }

  lemma {:induction false} FirstIndexExtend<T>(s: seq<T>, y: T)
    ensures forall x :: x in s ==> FirstIndex(s + [y], x) == FirstIndex(s, x)
  {
    forall x | x in s
      ensures FirstIndex(s + [y], x) == FirstIndex(s, x)
    {
      if s[0] != x {
        assert (s + [y])[1..] == s[1..] + [y];
        FirstIndexExtend(s[1..], y);
      }
    }
  }

  lemma {:induction false} FirstIndexFresh<T>(s: seq<T>, y: T)
    requires y !in s
    ensures FirstIndex(s + [y], y) == |s|
    ensures forall x :: x in s ==> FirstIndex(s, x) < |s|
  {
    if |s| > 0 {
      assert (s + [y])[1..] == s[1..] + [y];
      FirstIndexFresh(s[1..], y);
    }
  }

  lemma ConcatAssoc<T>(x: seq<T>, y: seq<T>, z: seq<T>)
    ensures x + (y + z) == (x + y) + z
  {
  }

  /** In a duplicate-free sequence every element occurs exactly once. */
  lemma {:induction false} NoDupMultiplicity<T>(s: seq<T>, x: T)
    requires NoDup(s) && x in s
    ensures multiset(s)[x] == 1
  {
    if s[0] == x {
      assert s == [s[0]] + s[1..];
      assert x !in s[1..] by {
        forall k | 0 <= k < |s[1..]| ensures s[1..][k] != x {
          assert s[1..][k] == s[k + 1];
        }
      }
    } else {
      assert s == [s[0]] + s[1..];
      NoDupMultiplicity(s[1..], x);
    }
  }

  lemma NoDupConcat<T>(a: seq<T>, b: seq<T>)
    requires NoDup(a) && NoDup(b)
    requires forall x :: x in a ==> x !in b
    ensures NoDup(a + b)
  {
    forall i, j | 0 <= i < j < |a + b|
      ensures (a + b)[i] != (a + b)[j]
    {
      if i < |a| && j >= |a| {
        assert (a + b)[i] in a && (a + b)[j] == b[j - |a|];
      }
    }
  }

  /** Deduplicating a duplicate-free sequence changes nothing, so
      deduplicating twice is deduplicating once. */
  lemma {:induction false} DedupOfNoDup<T>(s: seq<T>)
    requires NoDup(s)
    ensures Dedup(s) == s
  {
    if |s| > 0 {
      var init := s[..|s| - 1];
      var last := s[|s| - 1];
      assert NoDup(init) by {
        forall i, j | 0 <= i < j < |init| ensures init[i] != init[j] {
          assert init[i] == s[i] && init[j] == s[j];
        }
      }
      DedupOfNoDup(init);
      assert last !in init by {
        forall k | 0 <= k < |init| ensures init[k] != last {
          assert init[k] == s[k];
        }
      }
      assert last !in Dedup(init);
      assert Dedup(s) == Dedup(init) + [last];
    }
  }
}

=== FILE: store.dfy ===
/** The read-only PLEXOS object graph the exporter queries: objects keyed by
    (class, name), their attribute, property and text tables, and the
    parent-to-child membership edges between them. */
module ObjectStore {
  import opened Strings
  import opened Seqs

  /** Object identity: a class name and an object name. */
  datatype Ident = Ident(cls: string, name: string)

  /** The sentinel root object every model hangs from. */
  const SystemRoot := Ident("System", "System")

  /** A stored value: a scalar, a Python list, or a Python tuple. */
  datatype Value = Scalar(text: string) | List(items: seq<Value>) | Tuple(items: seq<Value>)

  /** A keyed table of value maps: property key or text key to value-key to value. */
  type Table = map<string, map<string, Value>>

  /** One stored object: plain attributes, structured properties keyed
      "type.name", and free text keyed "category.name". */
  datatype Obj = Obj(attrs: map<string, Value>, props: Table, text: Table)

  /** The whole store; an edge (p, c) makes p a parent of c. */
  datatype Store = Store(objects: map<Ident, Obj>, edges: set<(Ident, Ident)>)

  /** The hierarchy string "class.name". */
  function Hierarchy(i: Ident): string
  {
    i.cls + "." + i.name
  }

  /** Reads an identity back from its hierarchy string, splitting at the first dot. */
  function ParseHierarchy(h: string): (i: Ident)
    requires '.' in h
    ensures Hierarchy(i) == h
  {
    var parts := SplitFirst(h);
    Ident(parts.0, parts.1)
  }

  lemma ParseHierarchyInverse(i: Ident)
    requires '.' !in i.cls
    ensures ParseHierarchy(Hierarchy(i)) == i
  {
    SplitJoin(i.cls, i.name);
  }

  /** Neither part of the identity contains a dot, so both `split('.', 1)`
      and `split('.')` of its hierarchy string give back the two parts. */
  predicate WellFormedIdent(i: Ident)
  {
    '.' !in i.cls && '.' !in i.name
  }

  predicate WellFormedObj(o: Obj)
  {
    && (forall k :: k in o.props ==> '.' in k && '.' !in SplitFirst(k).1)
    && (forall k :: k in o.text ==> '.' in k)
  }

  /** The shape the exporter's string splits rely on, and edges that only
      join stored objects. */
  predicate WellFormed(st: Store)
  {
    && (forall i :: i in st.objects ==> WellFormedIdent(i) && WellFormedObj(st.objects[i]))
    && (forall e :: e in st.edges ==> e.0 in st.objects && e.1 in st.objects)
  }

  /** `get_children()` */
  function Children(st: Store, i: Ident): set<Ident>
  {
    set e | e in st.edges && e.0 == i :: e.1
  }

  /** `get_parents()` */
  function Parents(st: Store, i: Ident): set<Ident>
  {
    set e | e in st.edges && e.1 == i :: e.0
  }

  /** `coad[cls].values()`: every stored object of one class. */
  function OfClass(st: Store, cls: string): set<Ident>
  {
    set i | i in st.objects && i.cls == cls
  }

  lemma RelativesAreStored(st: Store, i: Ident)
    requires WellFormed(st)
    ensures Children(st, i) <= st.objects.Keys
    ensures Parents(st, i) <= st.objects.Keys
  {
  }

  /** Iterating identities, modelled as the walk over their hierarchy
      strings in sorted order. It stands for Python sets, whose order is
      unspecified, and for the lists the store returns (`get_parents()`,
      `get_children()`, `values()`), whose order the store sets. */
  function Listing(ids: set<Ident>): (r: seq<Ident>)
    requires forall i :: i in ids ==> '.' !in i.cls
    ensures NoDup(r)
    ensures forall i :: i in r <==> i in ids
  {
    var hs := SortedKeys(set i | i in ids :: Hierarchy(i));
    ParseAll(hs, ids)
  }

  function ParseAll(hs: seq<string>, ids: set<Ident>): (r: seq<Ident>)
    requires forall i :: i in ids ==> '.' !in i.cls
    requires StrictlySorted(hs)
    requires forall h :: h in hs <==> exists i :: i in ids && h == Hierarchy(i)
    ensures |r| == |hs|
    ensures forall k :: 0 <= k < |hs| ==> Hierarchy(r[k]) == hs[k]
    ensures NoDup(r)
    ensures forall i :: i in r <==> i in ids
  {
    var r := seq(|hs|, k requires 0 <= k < |hs| => assert hs[k] in hs; ParseOne(hs[k], ids));
    ParseAllFacts(hs, ids, r);
    r
  }

  function ParseOne(h: string, ids: set<Ident>): (i: Ident)
    requires forall i :: i in ids ==> '.' !in i.cls
    requires exists i :: i in ids && h == Hierarchy(i)
    ensures i in ids && Hierarchy(i) == h
  {
    var j :| j in ids && h == Hierarchy(j);
    ParseHierarchyInverse(j);
    ParseHierarchy(h)
  }

  lemma ParseAllFacts(hs: seq<string>, ids: set<Ident>, r: seq<Ident>)
    requires forall i :: i in ids ==> '.' !in i.cls
    requires StrictlySorted(hs)
    requires forall h :: h in hs <==> exists i :: i in ids && h == Hierarchy(i)
    requires |r| == |hs|
    requires forall k :: 0 <= k < |hs| ==> r[k] in ids && Hierarchy(r[k]) == hs[k]
    ensures NoDup(r)
    ensures forall i :: i in r <==> i in ids
  {
    forall a, b | 0 <= a < b < |r|
      ensures r[a] != r[b]
    {
      LessIrreflexive(hs[a]);
    }
    forall i | i in ids
      ensures i in r
    {
      assert Hierarchy(i) in hs;
      var k :| 0 <= k < |hs| && hs[k] == Hierarchy(i);
      ParseHierarchyInverse(i);
      ParseHierarchyInverse(r[k]);
    }
  }
}

=== FILE: strings.dfy ===
/** Python's ordering on `str`, the `sorted()` listing of a set of keys, and
    the first-dot split that `str.split('.', 1)` performs. */
module Strings {

  /** `a < b` on Python strings: lexicographic by code point, a proper
      prefix sorting first. */
  predicate Less(a: string, b: string)
  {
    |b| > 0 && (|a| == 0 || a[0] < b[0] || (a[0] == b[0] && Less(a[1..], b[1..])))
  }

  predicate LessEq(a: string, b: string)
  {
    a == b || Less(a, b)
  }

  lemma {:induction false} LessIrreflexive(a: string)
    ensures !Less(a, a)
  {
    if |a| > 0 {
      LessIrreflexive(a[1..]);
    }
  }

  lemma {:induction false} LessTransitive(a: string, b: string, c: string)
    requires Less(a, b) && Less(b, c)
    ensures Less(a, c)
  {
    if |a| > 0 && a[0] == b[0] && b[0] == c[0] {
      LessTransitive(a[1..], b[1..], c[1..]);
    }
  }

  lemma {:induction false} LessTotal(a: string, b: string)
    ensures a == b || Less(a, b) || Less(b, a)
  {
    if |a| > 0 && |b| > 0 && a[0] == b[0] {
      LessTotal(a[1..], b[1..]);
      if a[1..] == b[1..] {
        assert a == [a[0]] + a[1..] && b == [b[0]] + b[1..];
      }
    }
  }

  lemma LessAsymmetric(a: string, b: string)
    requires Less(a, b)
    ensures !Less(b, a)
  {
    if Less(b, a) {
      LessTransitive(a, b, a);
      LessIrreflexive(a);
    }
  }

  /** `m` is an element of `s` that precedes or equals every element of `s`. */
  predicate IsLeast(m: string, s: set<string>)
  {
    m in s && forall y :: y in s ==> LessEq(m, y)
  }

  lemma {:induction false} LeastExists(s: set<string>)
    requires s != {}
    ensures exists m :: IsLeast(m, s)
    decreases |s|
  {
    var x :| x in s;
    if s == {x} {
      assert IsLeast(x, s);
    } else {
      LeastExists(s - {x});
      var m :| IsLeast(m, s - {x});
      LessTotal(x, m);
      if Less(x, m) {
        forall y | y in s
          ensures LessEq(x, y)
        {
          if y != x && y != m {
            assert y in s - {x};
            LessTransitive(x, m, y);
          }
        }
        assert IsLeast(x, s);
      } else {
        assert IsLeast(m, s);
      }
    }
  }

  lemma LeastUnique(s: set<string>)
    ensures forall m1, m2 :: IsLeast(m1, s) && IsLeast(m2, s) ==> m1 == m2
  {
    forall m1, m2 | IsLeast(m1, s) && IsLeast(m2, s)
      ensures m1 == m2
    {
      if m1 != m2 {
        LessAsymmetric(m1, m2);
      }
    }
  }

  predicate StrictlySorted(s: seq<string>)
  {
    forall i, j :: 0 <= i < j < |s| ==> Less(s[i], s[j])
  }

  /** `sorted(keys)`: the keys of a dictionary in increasing order. */
  function SortedKeys(s: set<string>): (r: seq<string>)
    ensures StrictlySorted(r)
    ensures forall x :: x in r <==> x in s
    ensures |r| == |s|
    decreases |s|
  {
    if s == {} then []
    else
      LeastExists(s);
      LeastUnique(s);
      var m :| IsLeast(m, s);
      var rest := SortedKeys(s - {m});
      LeastPrecedesRest(m, s, rest);
      [m] + rest
  }

  lemma LeastPrecedesRest(m: string, s: set<string>, rest: seq<string>)
    requires IsLeast(m, s)
    requires forall x :: x in rest <==> x in s - {m}
    ensures forall j :: 0 <= j < |rest| ==> Less(m, rest[j])
  {
    forall j | 0 <= j < |rest|
      ensures Less(m, rest[j])
    {
      assert rest[j] in s - {m};
    }
  }

  /** The tail of a strictly increasing sequence holds every element but its head. */
  lemma SortedTail(a: seq<string>)
    requires StrictlySorted(a) && |a| > 0
    ensures forall x :: x in a[1..] <==> x in a && x != a[0]
  {
    forall x
      ensures x in a[1..] <==> x in a && x != a[0]
    {
      if x in a[1..] {
        var i :| 0 <= i < |a[1..]| && a[1..][i] == x;
        assert a[i + 1] == x;
        LessIrreflexive(x);
      }
      if x in a && x != a[0] {
        var i :| 0 <= i < |a| && a[i] == x;
        assert a[1..][i - 1] == x;
      }
    }
  }

  /** Two strictly increasing sequences with the same elements are equal:
      sorting yields the one canonical listing of a key set. */
  lemma {:induction false} SortedUnique(a: seq<string>, b: seq<string>)
    requires StrictlySorted(a) && StrictlySorted(b)
    requires forall x :: x in a <==> x in b
    ensures a == b
  {
    if |b| > 0 {
      assert b[0] in b;
    }
    if |a| > 0 {
      assert a[0] in b && b[0] in a;
      if a[0] != b[0] {
        var i :| 0 < i < |a| && a[i] == b[0];
        var j :| 0 < j < |b| && b[j] == a[0];
        LessAsymmetric(a[0], a[i]);
      }
      SortedTail(a);
      SortedTail(b);
      SortedUnique(a[1..], b[1..]);
      assert a == [a[0]] + a[1..] && b == [b[0]] + b[1..];
    }
  }

  /** Position of the first '.' in `s`. */
  function DotIndex(s: string): (k: nat)
    requires '.' in s
    ensures k < |s| && s[k] == '.' && '.' !in s[..k]
  {
    if s[0] == '.' then 0
    else
      var k := DotIndex(s[1..]);
      assert s[..k + 1] == [s[0]] + s[1..][..k];
      k + 1
  }

  /** `s.split('.', 1)`: the part before the first dot and the rest. */
  function SplitFirst(s: string): (parts: (string, string))
    requires '.' in s
    ensures s == parts.0 + "." + parts.1
    ensures '.' !in parts.0
  {
    var k := DotIndex(s);
    assert s == s[..k] + "." + s[k + 1..];
    (s[..k], s[k + 1..])
  }

  /** Splitting a joined pair gives the pair back when the head has no dot. */
  lemma {:induction false} SplitJoin(head: string, tail: string)
    requires '.' !in head
    ensures SplitFirst(head + "." + tail) == (head, tail)
  {
    var s := head + "." + tail;
    var k := DotIndex(s);
    assert s[|head|] == '.';
    assert s[..|head|] == head;
    assert s[|head| + 1..] == tail;
  }
}

=== FILE: wrappers.dfy ===
/** Option and Result datatypes shared by the pipeline stages. */
module Wrappers {

  datatype Option<+T> = None | Some(value: T)

  datatype Result<+R, +E> = Success(value: R) | Failure(error: E)
}
